=== FILE: README.md ===
# Class data processor, modelled in Dafny

The repository is a small Streamlit tool for school score sheets. A teacher
uploads one Excel workbook with a `Class` column. The tool runs in two stages:

1. `split_class_data` writes one workbook per distinct class value. Each
   holds that class's rows, minus a configured list of column positions.
   It is named from a prefix and the class value, with newlines turned into
   spaces and surrounding whitespace stripped.
2. `extract_columns_to_workbooks` cuts every class workbook into two-column
   workbooks. Each pairs the first column (the student key) with one subject
   column and is named `<class file name with every .xlsx removed>_<subject>.xlsx`.

`process_class_data` chains the two stages. The newer script, `app3.py`, drops
positions `0, 2, 3` and the last five columns, and names class files
`<upload base name>_<class>.xlsx`. The older script, `app.py`, drops positions
`0, 2, 3, 22..26` and names class files `jss1 second term <class>.xlsx`. Apart
from those constants the two scripts run the same loops.

The model is split into modules:

- `Tables` holds the data: a table is a header row of labels plus data rows,
  and a cell is a string. A directory of workbooks is a `map` from file name
  to table. Writing a workbook is a map update, so a later write of the same
  name replaces an earlier one. Reading a workbook back gives the table that
  was written.
- `Columns` covers column views: one column, positional column removal, and
  pairing two columns.
- `Rows` covers row views: finding a label, the distinct values of a column
  in order of first appearance (pandas `unique()`), and the boolean-mask row
  filter.
- `Names` covers the string work: Python's `replace` and `strip` on class
  values, and the removal of `.xlsx` from saved names.
- `Partition` models the split. The drop positions and the name prefix are
  parameters.
- `Decompose` models the per-column decomposition.
- `Pipeline` models `process_class_data`: the split, then the loop over the
  saved files.
- `App3` and `App` fix each script's constants. They prove what those
  constants mean: which columns survive, when the scripts fail, and what the
  file names become.

The stages are methods with loops. Their directories are passed in and
returned as values. Each method is proved equal to a specification function
(`SplitEntries`, `SubjectEntries`, `ProcessOutputs`) that lists the writes in
order. The properties of the scripts are proved as lemmas about those
functions.

Three consequences of the code are worth stating:

- Two class values that clean to the same name, such as "JSS1\n" and "JSS1",
  stay two classes of `unique()` and share one file name. The later write
  replaces the earlier one (`Partition.TrailingNewlineCollides`,
  `Partition.SplitLastClassWins`). The name is also listed twice among the
  saved files, and the replacing table is decomposed twice.
- The drop positions index the column list before `drop` is called, and
  `errors='ignore'` only covers labels. Any position outside the table
  therefore raises `IndexError` at the first class, and nothing is written
  (`Partition.SplitErrors`, `App.NarrowTableFails`).
- A table without rows has no class values. It writes no workbooks and
  succeeds; the drop positions are never looked up.

A fourth follows from `replace(".xlsx", "")` removing every occurrence of the
extension. The class values "A" and "A.xlsx" get two class files, but both give
the prefix `<base>_A`, so their subject workbooks share names and the later
replaces the earlier in the final directory (`App3.ExtensionInClassCollides`).

## Model

| member | source | states |
|---|---|---|
| Tables.WriteAllLastWins | app3.py:40-41 | after a sequence of writes, a file name holds the table of the last write with that name |
| Tables.WriteAll | app3.py:41 | writes one after the other into a directory; characterized by `WriteAllLastWins`, `WriteAllUntouched`, `WriteAllKeys` and `WriteAllAppend` |
| Tables.WriteAllUntouched | app3.py:41 | a file name that is never written keeps what the directory held before |
| Tables.WriteAllKeys | app3.py:40-42 | the files afterwards are the earlier files plus every name written |
| Tables.WriteAllCollision | app.py:28-30 | when two writes share a name, the file never keeps the earlier table: it holds the table of that later write or of one after it |
| Tables.WriteAllAppend | app3.py:72-75 | writing two batches one after the other is the same as writing their concatenation |
| Columns.Kept | app3.py:35 | the surviving positions are exactly the positions below n that are not dropped, in ascending order |
| Columns.KeptCount | app.py:25 | removing positions leaves n minus the number of distinct dropped positions that exist; repeated positions count once |
| Columns.SurvivorsAppend | app3.py:35 | filtering positions distributes over concatenation |
| Columns.IncreasingUnique | app3.py:35 | two ascending position lists with the same members are equal, so the surviving columns are fixed by which ones survive |
| Columns.DropColumns | app3.py:35 | dropping keeps every row and the row count; column m of the result is input column Kept[m], in the header and in every row |
| Columns.Zip | app3.py:52 | two equally long columns side by side: row m is the pair of their m-th cells |
| Rows.IndexOf | app3.py:17-18 | returns None exactly when the label is absent; otherwise the first column carrying the label |
| Rows.UniqueMembers | app3.py:21 | the distinct values are exactly the values occurring in the column |
| Rows.UniqueNoDuplicates | app3.py:21 | no distinct value is listed twice |
| Rows.UniqueFirstAppearance | app.py:15 | distinct values are listed in the order of their first appearance |
| Rows.SelectRows | app3.py:26 | the mask filter keeps only rows of the input whose key cell equals the class value |
| Rows.SelectRowsAppend | app.py:23 | filtering distributes over concatenation, so rows keep their input order |
| Rows.SelectRowsCount | app3.py:26 | a row with the class value is kept as often as it occurs; no other row is kept |
| Rows.ClassRowsCount | app3.py:24-26 | across distinct class values, a row appears as often as in the input when its key is among them, and otherwise never |
| Rows.SplitPartitionsRows | app3.py:21-26 | the class selections together are a permutation of the input rows |
| Rows.EachRowInOneClass | app.py:15-23 | every input row's class is among the distinct values, and the row is selected for exactly one of them |
| Names.NewlinesToSpaces | app3.py:25 | every newline becomes a space and every other character stays where it was; no newline is left |
| Names.StripLeading | app3.py:25 | removes exactly the leading whitespace: a suffix of the input, the removed characters are whitespace, and the result does not start with whitespace |
| Names.StripTrailing | app.py:20 | removes exactly the trailing whitespace: a prefix of the input, the removed characters are whitespace, and the result does not end with whitespace |
| Names.Clean | app3.py:25 | `cls.replace('\n', ' ').strip()`; its properties are stated by `CleanShape`, `CleanIdempotent` and `CleanTrailingNewline` |
| Names.StripIsRun | app3.py:25 | stripping yields a contiguous piece of the input |
| Names.CleanShape | app3.py:25 | a cleaned class name has no newline and no whitespace at either end |
| Names.CleanIdempotent | app3.py:25 | cleaning a cleaned name changes nothing |
| Names.CleanTrailingNewline | app.py:20 | a trailing newline does not change the cleaned name |
| Names.RemoveAll | app3.py:73 | `replace(".xlsx", "")` never makes a name longer; what it removes is stated by `RemoveAllFree`, `RemoveAllSuffix` and `RemoveAllInfix` |
| Names.RemoveAllFree | app.py:68 | a name without the extension is left unchanged |
| Names.RemoveAllSuffix | app3.py:73 | the extension is removed from a name that ends with it and has it nowhere else, and the rest of the name is kept unchanged |
| Names.RemoveAllInfix | app3.py:73 | an occurrence of the extension before the end is removed as well, and the scan goes on with what follows it |
| Names.FreeJoin | app3.py:40 | joining two extension-free strings with a separator that shares no character with the extension gives an extension-free string |
| Partition.Normalize | app3.py:32 | a negative position counts from the end; the result is within the table |
| Partition.Resolve | app3.py:35 | fails exactly when some position lies outside the table, with IndexError for its width; otherwise the result is exactly the set of columns the positions name, negative ones counted from the end |
| Partition.ClassFileName | app3.py:40 | prefix, cleaned class value, ".xlsx"; two class values share a name exactly when they clean alike (`ClassFileNameCollision`) |
| Partition.ClassTable | app3.py:26-35 | a well-formed table with as many rows as the class's selection; its header is the input's labels at the surviving positions, in order, and row r holds the r-th selected row's cells at those positions |
| Partition.SplitEntries | app3.py:17-44 | the workbooks the split writes, in order, or its error; characterized by `SplitErrors`, `SplitNamesFollowClasses`, `SplitClassRows` and `SplitPartitionsInput` |
| Partition.SplitErrors | app3.py:17-18 | the split fails exactly when 'Class' is missing (and then says so) or when the table has rows and a position is out of range; otherwise it writes one workbook per distinct class value |
| Partition.SplitClassData | app3.py:10-44 | the loop writes the specified workbooks in order and returns their names; on an error nothing is written and the error is returned |
| Partition.SplitNamesFollowClasses | app3.py:40 | the i-th file is named prefix + cleaned i-th distinct class value + ".xlsx", and that value occurs in the input |
| Partition.SplitClassRows | app3.py:26-35 | each class workbook holds exactly its class's input rows, in order; its header is the input's labels at the surviving positions, in order, and each row holds the input row's cells at those positions |
| Partition.SplitPartitionsInput | app.py:18-25 | the class selections together are a permutation of the input rows; each row is selected for exactly one class value |
| Partition.ClassFileNameCollision | app.py:20-28 | two class values get the same file name exactly when they clean to the same string |
| Partition.TrailingNewlineCollides | app3.py:25 | a class value and the same value with a trailing newline are different classes with one file name |
| Partition.SplitLastClassWins | app3.py:40-41 | a class's file ends up holding the table of the last class value, in first-appearance order, with the same cleaned name |
| Decompose.KeyAndColumn | app3.py:52 | the pair table has the key label and the column's label, as many rows as the input, and row m is (key cell, column cell) |
| Decompose.SubjectFileName | app3.py:54 | prefix, "_", the column label and ".xlsx"; with the prefix of a saved class file this gives the name stated by `App3.FinalFileName` |
| Decompose.SubjectEntries | app3.py:47-55 | the subject workbooks of one class workbook, in column order, or the missing key column; characterized by `DecomposeCount` and `DecomposeShape` |
| Decompose.DecomposeCount | app3.py:49-51 | decomposition fails exactly on a table without columns, with the missing key column; otherwise it yields one workbook per column after the first |
| Decompose.DecomposeShape | app.py:40-54 | the j-th workbook is named prefix_label.xlsx after column j+1 and pairs the key column with that column row for row; a one-column table yields nothing |
| Decompose.ExtractColumnsToWorkbooks | app3.py:47-55 | the loop writes exactly the specified workbooks in column order; without a key column nothing is written and the error is returned |
| Pipeline.StemRoundTrip | app3.py:73 | a saved name built from two extension-free parts joined by "_" or " ", plus ".xlsx", gives back exactly its stem |
| Pipeline.SubjectPrefix | app3.py:73 | every ".xlsx" is removed from the saved name; `StemRoundTrip` gives back the stem of a well-formed name, `App3.ExtensionInClassCollides` shows two names giving one prefix |
| Pipeline.ProcessOutputs | app3.py:72-75 | the subject workbooks of the saved files in order up to the first failure, and whether one failed; characterized by `ProcessStopsAtError` and `ProcessOutputsCount` |
| Pipeline.ProcessStopsAtError | app3.py:72-75 | once a saved file fails, later files change nothing |
| Pipeline.ProcessOutputsCount | app.py:66-72 | the loop finishes exactly when every saved workbook has a key column, then writing one workbook per column after the first of each; otherwise the error is the missing key column |
| Pipeline.FirstWithoutKeyStops | app3.py:49 | when the first saved workbook has no column, the loop stops before writing anything |
| Pipeline.ProcessSavedFiles | app3.py:72-75 | the loop writes exactly the specified subject workbooks and returns the specified outcome |
| Pipeline.WrittenReadable | app3.py:41-42 | every saved name exists in the class directory and reads back as a well-formed table |
| Pipeline.ProcessClassData | app3.py:67-75 | a failing split writes nothing anywhere; otherwise the class directory holds the split's writes, every saved name can be read back, and the final directory holds the subject workbooks of the saved files up to the first failure |
| App3.ResolvePositions | app3.py:29-35 | the positions exist exactly when the table has at least five columns, and then name columns 0, 2, 3 and the last five |
| App3.KeptShapeMembers | app3.py:29-32 | the shape [1] + 4..n-6 (or empty below seven columns) holds exactly the columns that are not dropped |
| App3.KeptColumns | app3.py:35 | a class workbook keeps no column of a five- or six-column table, and otherwise column 1 followed by columns 4 to n-6 |
| App3.KeptCount | app3.py:29-35 | from nine columns on, a class workbook has eight columns fewer |
| App3.SubjectPrefixRoundTrip | app3.py:73 | stripping the extension from a saved class name gives base_cleanclass back, when neither part holds ".xlsx" |
| App3.FinalFileName | app3.py:74 | subject workbooks are named base_cleanclass_subject.xlsx, when neither the base name nor the cleaned class holds ".xlsx" |
| App3.ExtensionInClassCollides | app3.py:73-75 | class values "A" and "A.xlsx" get different class files but the same prefix, so every subject workbook of one has the name of the other's |
| App3.NarrowTableSplit | app3.py:32-35 | a five- or six-column table with rows splits without error into workbooks without any column |
| App3.NarrowTableStops | app3.py:49 | on such a table the run then stops at the first class workbook before writing any subject workbook |
| App.ResolvePositions | app.py:24-25 | the positions exist exactly when the table has at least 27 columns, and then name 0, 2, 3 and 22..26 |
| App.KeptShapeMembers | app.py:24 | the shape [1] + 4..21 + 27..n-1 holds exactly the columns that are not dropped |
| App.KeptColumns | app.py:25 | a class workbook keeps column 1, columns 4 to 21 and columns 27 on, in order |
| App.KeptCount | app.py:24-25 | a class workbook has eight columns fewer than the input |
| App.NarrowTableFails | app.py:24-25 | a table with 'Class', rows and fewer than 27 columns fails with IndexError for its width |
| App.SubjectPrefixRoundTrip | app.py:28 | stripping the extension from a saved class name gives "jss1 second term " + cleaned class back, when the cleaned class has no ".xlsx" |

## Left out

- The Streamlit interface (`main`) is not modelled: uploading, spinners, download buttons and the message shown on an error.
- Reading and writing Excel files are modelled as storing a table under a file name and reading the same table back. openpyxl's formats, dtype inference and the reading of empty cells as NaN are left out.
- `astype(str)` is not modelled: every cell is already a string. As a consequence the older script's failure on non-string class values (`cls.replace` on a number or NaN) is not modelled.
- Column labels are assumed distinct. pandas drops by label, so a label repeated at a kept position would also be removed, and reading back mangles repeated labels. The model drops by position only.
- Paths are not modelled. A file name stands for `os.path.join(output_dir, name)`, and `os.path.basename` is the identity on it. A class value or a subject column label containing `/` (such as "CRS/IRS") would name a subdirectory that does not exist, so writing that workbook fails; the model writes it under the full name instead.
- `os.makedirs` is not modelled: directories are map values that always exist.
- `zip_files` and the temporary directory are not modelled.
- The `print` of every workbook created in `app.py` is not modelled.
- Exceptions are modelled as the error values of `Tables.Error`. The `ValueError` (`app3.py`) and the `KeyError` (`app.py`) for a missing 'Class' label are both `MissingColumn`. An `IndexError` from a drop position is `IndexOutOfBounds`. `iloc[:, 0]` on a workbook without columns is `NoKeyColumn`.

=== FILE: app.dfy ===
/** The constants of the older script: a class workbook loses the first,
    third and fourth columns and the columns at positions 22 to 26, and its
    file is named "jss1 second term " followed by the cleaned class value. */
module App {
  import opened Tables
  import opened Columns
  import opened Names
  import opened Partition
  import opened Pipeline

  /** `[0, 2, 3, 22, 23, 24, 25, 26]`. */
  const Positions: seq<int> := [0, 2, 3, 22, 23, 24, 25, 26]

  /** The fixed file-name prefix of every class workbook. */
  const Prefix: string := "jss1 second term "

  /** The columns a class workbook loses. */
  const DropSet: set<nat> := {0, 2, 3, 22, 23, 24, 25, 26}

  /** The positions all exist exactly when the table has at least 27
      columns, and then name the listed columns. */
  lemma ResolvePositions(n: nat)
    ensures Resolve(Positions, n).Ok? <==> n >= 27
    ensures Resolve(Positions, n).Ok? ==> Resolve(Positions, n).value == DropSet
  {
    if n >= 27 {
      assert forall m :: 0 <= m < |Positions| ==> InBounds(Positions[m], n);
      var got := Resolve(Positions, n).value;
      forall j: nat ensures j in got <==> j in DropSet {
        if j in DropSet {
          var m := if j == 0 then 0 else if j == 2 then 1 else if j == 3 then 2 else j - 19;
          assert Normalize(Positions[m], n) == j;
        }
      }
    } else {
      assert !InBounds(Positions[7], n);
    }
  }

  /** The second column, the fifth to the 22nd, and everything from the
      28th on. */
  function KeptShape(n: nat): seq<nat>
    requires n >= 27
  {
    [1] + Range(4, 22) + Range(27, n)
  }

  /** The shape holds exactly the columns that are not dropped. */
  lemma KeptShapeMembers(n: nat)
    requires n >= 27
    ensures forall j :: j in KeptShape(n) <==> 0 <= j < n && j !in DropSet
  {
    forall j ensures j in KeptShape(n) <==> 0 <= j < n && j !in DropSet {
      if 0 <= j < n && j !in DropSet {
        KeptShapeHas(n, j);
      }
      if j in KeptShape(n) {
        var m :| 0 <= m < |KeptShape(n)| && KeptShape(n)[m] == j;
        KeptShapeAt(n, m);
      }
    }
  }

  /** Every column that is not dropped is in the shape. */
  lemma KeptShapeHas(n: nat, j: nat)
    requires n >= 27 && j < n && j !in DropSet
    ensures j in KeptShape(n)
  {
    var keep := KeptShape(n);
    if 4 <= j < 22 {
      assert keep[j - 3] == Range(4, 22)[j - 4] == j;
    } else if 27 <= j {
      assert keep[j - 8] == Range(27, n)[j - 27] == j;
    } else {
      assert keep[0] == j;
    }
  }

  /** Every column in the shape is one that is not dropped. */
  lemma KeptShapeAt(n: nat, m: nat)
    requires n >= 27 && m < |KeptShape(n)|
    ensures KeptShape(n)[m] < n && KeptShape(n)[m] !in DropSet
  {
    var keep := KeptShape(n);
    if m == 0 {
      assert keep[m] == 1;
    } else if m < 19 {
      assert keep[m] == Range(4, 22)[m - 1];
    } else {
      assert keep[m] == Range(27, n)[m - 19];
    }
  }

  /** The shape lists its columns left to right. */
  lemma KeptShapeIncreasing(n: nat)
    requires n >= 27
    ensures Increasing(KeptShape(n))
  {
    var keep := KeptShape(n);
    forall a, b | 0 <= a < b < |keep| ensures keep[a] < keep[b] {
      if b >= 19 {
        assert keep[b] == Range(27, n)[b - 19];
      } else {
        assert keep[b] == Range(4, 22)[b - 1];
      }
      if 19 <= a {
        assert keep[a] == Range(27, n)[a - 19];
      } else if 0 < a {
        assert keep[a] == Range(4, 22)[a - 1];
      }
    }
  }

  /** A class workbook keeps the second column, the fifth to the 22nd and
      every column from the 28th on, in that order. */
  lemma KeptColumns(n: nat)
    requires n >= 27
    ensures Resolve(Positions, n).Ok?
    ensures Kept(n, Resolve(Positions, n).value) == [1] + Range(4, 22) + Range(27, n)
  {
    ResolvePositions(n);
    KeptIsShape(n);
  }

  /** The kept columns are the shape: both list exactly the columns that are
      not dropped, in ascending order. */
  lemma KeptIsShape(n: nat)
    requires n >= 27
    ensures Kept(n, DropSet) == KeptShape(n)
  {
    KeptShapeMembers(n);
    KeptShapeIncreasing(n);
    IncreasingUnique(Kept(n, DropSet), KeptShape(n));
  }

  /** A class workbook has eight columns fewer than the input. */
  lemma KeptCount(n: nat)
    requires n >= 27
    ensures Resolve(Positions, n).Ok?
    ensures |Kept(n, Resolve(Positions, n).value)| == n - 8
  {
    KeptColumns(n);
  }

  /** A table with a 'Class' column, at least one row and fewer than 27
      columns stops at the first class with an IndexError, before writing
      anything. */
  lemma NarrowTableFails(df: Table)
    requires WellFormed(df) && df.rows != []
    requires ClassLabel in df.header && |df.header| < 27
    ensures SplitEntries(df, Positions, Prefix) == Err(IndexOutOfBounds(|df.header|))
  {
    SplitErrors(df, Positions, Prefix);
    ResolvePositions(|df.header|);
  }

  /** The name a saved class workbook is decomposed under is its own name
      without the extension, as long as the cleaned class value does not
      hold the extension itself. */
  lemma SubjectPrefixRoundTrip(cls: Cell)
    requires Free(Clean(cls), Extension)
    ensures SubjectPrefix(ClassFileName(Prefix, cls)) == Prefix + Clean(cls)
  {
    var head := PrefixHead();
    var c := Clean(cls);
    assert ClassFileName(Prefix, cls) == head + " " + c + Extension;
    StemRoundTrip(head, " ", c);
  }

  /** The prefix is a word sequence without the extension, then a space. */
  lemma PrefixHead() returns (head: string)
    ensures Prefix == head + " " && Free(head, Extension)
  {
    head := "jss1 second term";
    assert '.' !in head;
    FreeOfFirst(head, Extension);
  }
}

=== FILE: app3.dfy ===
/** The constants of the newer script: which columns a class workbook loses
    (the first, third and fourth, and the last five, counted from the end)
    and how its file is named (the upload's base name, an underscore and the
    cleaned class value). */
module App3 {
  import opened Tables
  import opened Columns
  import opened Rows
  import opened Names
  import opened Decompose
  import opened Partition
  import opened Pipeline

  /** `[0, 2, 3] + list(range(-5, 0))`. */
  const Positions: seq<int> := [0, 2, 3, -5, -4, -3, -2, -1]

  /** The file-name prefix of the class workbooks of an upload named `base`. */
  function Prefix(base: string): string {
    base + "_"
  }

  /** The columns an n-column table loses: the first, third and fourth, and
      the last five. */
  function DropSet(n: nat): set<nat>
    requires n >= 5
  {
    {0, 2, 3, n - 5, n - 4, n - 3, n - 2, n - 1}
  }

  /** The positions are looked up in the table's own columns: they all exist
      exactly when the table has at least five columns, and then name the
      first, third, fourth and last five columns (overlapping on narrow
      tables). */
  lemma ResolvePositions(n: nat)
    ensures Resolve(Positions, n).Ok? <==> n >= 5
    ensures Resolve(Positions, n).Ok? ==> Resolve(Positions, n).value == DropSet(n)
  {
    if n >= 5 {
      assert forall m :: 0 <= m < |Positions| ==> InBounds(Positions[m], n);
      var got := Resolve(Positions, n).value;
      forall j: nat ensures j in got <==> j in DropSet(n) {
        if j in DropSet(n) {
          if j == 0 || j == 2 || j == 3 {
            var m := if j == 0 then 0 else if j == 2 then 1 else 2;
            assert Normalize(Positions[m], n) == j;
          } else {
            var m := j - n + 8;
            assert Normalize(Positions[m], n) == j;
          }
        }
      }
    } else {
      assert !InBounds(Positions[3], n);
    }
  }

  /** The second column, then the fifth up to the sixth-last. */
  function KeptShape(n: nat): seq<nat>
    requires n >= 5
  {
    if n < 7 then [] else [1] + Range(4, n - 5)
  }

  /** The shape holds exactly the columns that are not dropped. */
  lemma KeptShapeMembers(n: nat)
    requires n >= 5
    ensures forall j :: j in KeptShape(n) <==> 0 <= j < n && j !in DropSet(n)
  {
    var keep := KeptShape(n);
    forall j ensures j in keep <==> 0 <= j < n && j !in DropSet(n) {
      if n >= 7 && 4 <= j < n - 5 {
        assert Range(4, n - 5)[j - 4] == j;
        assert keep[j - 3] == j;
      }
      if j in keep && j != 1 {
        var m :| 0 <= m < |keep| && keep[m] == j;
        assert keep[m] == Range(4, n - 5)[m - 1];
      }
    }
  }

  /** The shape lists its columns left to right. */
  lemma KeptShapeIncreasing(n: nat)
    requires n >= 5
    ensures Increasing(KeptShape(n))
  {
    var keep := KeptShape(n);
    forall a, b | 0 <= a < b < |keep| ensures keep[a] < keep[b] {
      assert keep[b] == Range(4, n - 5)[b - 1];
      if a > 0 {
        assert keep[a] == Range(4, n - 5)[a - 1];
      }
    }
  }

  /** The columns a class workbook keeps, in order: none of a table with
      five or six columns, and otherwise the second column followed by the
      fifth up to the sixth-last. */
  lemma KeptColumns(n: nat)
    requires n >= 5
    ensures Resolve(Positions, n).Ok?
    ensures Kept(n, Resolve(Positions, n).value) == if n < 7 then [] else [1] + Range(4, n - 5)
  {
    ResolvePositions(n);
    KeptIsShape(n);
  }

  /** The kept columns are the shape: both list exactly the columns that are
      not dropped, in ascending order. */
  lemma KeptIsShape(n: nat)
    requires n >= 5
    ensures Kept(n, DropSet(n)) == KeptShape(n)
  {
    KeptShapeMembers(n);
    KeptShapeIncreasing(n);
    IncreasingUnique(Kept(n, DropSet(n)), KeptShape(n));
  }

  /** A class workbook of a table with at least nine columns has eight
      fewer columns. */
  lemma KeptCount(n: nat)
    requires n >= 9
    ensures Resolve(Positions, n).Ok?
    ensures |Kept(n, Resolve(Positions, n).value)| == n - 8
  {
    KeptColumns(n);
  }

  /** The name a saved class workbook is decomposed under is its own name
      without the extension: the base name, an underscore and the cleaned
      class value, as long as neither holds the extension itself. */
  lemma SubjectPrefixRoundTrip(base: string, cls: Cell)
    requires Free(base, Extension) && Free(Clean(cls), Extension)
    ensures SubjectPrefix(ClassFileName(Prefix(base), cls)) == base + "_" + Clean(cls)
  {
    assert ClassFileName(Prefix(base), cls) == base + "_" + Clean(cls) + Extension;
    StemRoundTrip(base, "_", Clean(cls));
  }

  /** The workbooks that end up in the final directory are named after the
      upload, the cleaned class value and the subject column. */
  lemma FinalFileName(base: string, cls: Cell, column: string)
    requires Free(base, Extension) && Free(Clean(cls), Extension)
    ensures SubjectFileName(SubjectPrefix(ClassFileName(Prefix(base), cls)), column)
              == base + "_" + Clean(cls) + "_" + column + ".xlsx"
  {
    SubjectPrefixRoundTrip(base, cls);
  }

  /** Every occurrence of the extension is removed from a saved name, not
      only the last. A class value that cleans to another's cleaned value
      followed by the extension ("A.xlsx" beside "A") gets a class file of
      its own, yet both files give the same prefix, so their subject
      workbooks share every name and the later replaces the earlier in the
      final directory. */
  lemma ExtensionInClassCollides(base: string, cls: Cell, other: Cell, column: string)
    requires Free(base, Extension) && Free(Clean(cls), Extension)
    requires Clean(other) == Clean(cls) + Extension
    ensures ClassFileName(Prefix(base), other) != ClassFileName(Prefix(base), cls)
    ensures SubjectPrefix(ClassFileName(Prefix(base), other))
              == SubjectPrefix(ClassFileName(Prefix(base), cls))
    ensures SubjectFileName(SubjectPrefix(ClassFileName(Prefix(base), other)), column)
              == base + "_" + Clean(cls) + "_" + column + ".xlsx"
  {
    var c := Clean(cls);
    var stem := base + "_" + c;
    var mine := ClassFileName(Prefix(base), cls);
    var theirs := ClassFileName(Prefix(base), other);
    assert mine == stem + Extension;
    DoubledName(base, c, Clean(other));
    assert |theirs| != |mine|;
    SubjectPrefixRoundTrip(base, cls);
    ExtensionFacts();
    FreeJoin(base, "_", c, Extension);
    DoubleExtension(stem);
  }

  /** The class file name of a cleaned value that ends with the extension. */
  lemma DoubledName(base: string, c: string, d: string)
    requires d == c + Extension
    ensures Prefix(base) + d + Extension == base + "_" + c + Extension + Extension
  {
    var e := Extension;
    assert Prefix(base) + d + e == (base + "_") + (c + e) + e;
    assert (base + "_") + (c + e) + e == (base + "_" + c) + e + e;
  }

  /** A table of five or six columns with a 'Class' column and at least one
      row splits without error, into class workbooks without any column. */
  lemma NarrowTableSplit(df: Table, base: string)
    requires WellFormed(df) && df.rows != []
    requires ClassLabel in df.header && 5 <= |df.header| <= 6
    ensures SplitEntries(df, Positions, Prefix(base)).Ok?
    ensures var es := SplitEntries(df, Positions, Prefix(base)).value;
            es != [] && forall m :: 0 <= m < |es| ==> es[m].table.header == []
  {
    var n := |df.header|;
    var k := IndexOf(df.header, ClassLabel).value;
    var u := Unique(KeyColumn(df, k));
    UniqueMembers(KeyColumn(df, k));
    assert KeyColumn(df, k)[0] in u;
    KeptColumns(n);
    var drop := Resolve(Positions, n).value;
    assert Kept(n, drop) == [];
    var es := ClassEntries(df, k, u, drop, Prefix(base));
    assert SplitEntries(df, Positions, Prefix(base)) == Ok(es);
    forall m | 0 <= m < |es| ensures es[m].table.header == [] {
      assert es[m].table == ClassTable(df, k, u[m], drop);
    }
  }

  /** On such a table the run then stops on the first class workbook, which
      has no key column, before writing any subject workbook. */
  lemma NarrowTableStops(df: Table, base: string, classDir: Dir)
    requires WellFormed(df) && df.rows != []
    requires ClassLabel in df.header && 5 <= |df.header| <= 6
    ensures SplitEntries(df, Positions, Prefix(base)).Ok?
    ensures var es := SplitEntries(df, Positions, Prefix(base)).value;
            && Readable(WriteAll(classDir, es), FileNames(es))
            && ProcessOutputs(WriteAll(classDir, es), FileNames(es)) == ([], Err(NoKeyColumn))
  {
    NarrowTableSplit(df, base);
    var es := SplitEntries(df, Positions, Prefix(base)).value;
    SplitWellFormed(df, Positions, Prefix(base));
    WrittenReadable(classDir, es);
    var l := LastWith(es, es[0].name, 0);
    WriteAllLastWins(classDir, es, l);
    FirstWithoutKeyStops(WriteAll(classDir, es), FileNames(es));
  }
}

=== FILE: columns.dfy ===
/** Column-wise views of a table: reading one column, removing a set of
    column positions while keeping the survivors in order, and pairing two
    columns side by side. */
module Columns {
  import opened Tables

  /** The values of column `k`, top to bottom. */
  function Column(rows: seq<Row>, k: nat): (c: seq<Cell>)
    requires forall r | r in rows :: k < |r|
    ensures |c| == |rows|
    ensures forall i :: 0 <= i < |rows| ==> c[i] == rows[i][k]
  {
    seq(|rows|, i requires 0 <= i < |rows| => rows[i][k])
  }

  /** The positions lo, lo+1, ..., hi-1. */
  function Range(lo: nat, hi: nat): (r: seq<nat>)
    ensures |r| == if lo <= hi then hi - lo else 0
    ensures forall m :: 0 <= m < |r| ==> r[m] == lo + m
    decreases hi
  {
    if lo >= hi then [] else Range(lo, hi - 1) + [hi - 1]
  }

  predicate Increasing(s: seq<nat>) {
    forall a, b :: 0 <= a < b < |s| ==> s[a] < s[b]
  }

  /** The positions of `idx` that are not in `drop`, in their order. */
  function Survivors(idx: seq<nat>, drop: set<nat>): (r: seq<nat>)
    ensures |r| <= |idx|
  {
    if idx == [] then []
    else (if idx[0] in drop then [] else [idx[0]]) + Survivors(idx[1..], drop)
  }

  /** A position survives exactly when it is listed and not dropped. */
  lemma {:induction false} SurvivorsMembers(idx: seq<nat>, drop: set<nat>)
    ensures forall j :: j in Survivors(idx, drop) <==> j in idx && j !in drop
  {
    if idx != [] {
      SurvivorsMembers(idx[1..], drop);
      assert idx == [idx[0]] + idx[1..];
    }
  }

  /** Survivors keep their relative order. */
  lemma {:induction false} SurvivorsIncreasing(idx: seq<nat>, drop: set<nat>)
    requires Increasing(idx)
    ensures Increasing(Survivors(idx, drop))
  {
    if idx != [] {
      var rest := Survivors(idx[1..], drop);
      SurvivorsIncreasing(idx[1..], drop);
      SurvivorsMembers(idx[1..], drop);
      forall j | j in rest ensures idx[0] < j {
        var m :| 0 <= m < |idx[1..]| && idx[1..][m] == j;
        assert idx[m + 1] == j;
      }
      if idx[0] !in drop {
        var r := Survivors(idx, drop);
        assert r == [idx[0]] + rest;
        forall a, b | 0 <= a < b < |r| ensures r[a] < r[b] {
          assert r[b] == rest[b - 1] && rest[b - 1] in rest;
          if a > 0 {
            assert r[a] == rest[a - 1];
          }
        }
      }
    }
  }

  /** Filtering a concatenation filters each part. */
  lemma {:induction false} SurvivorsAppend(a: seq<nat>, b: seq<nat>, drop: set<nat>)
    ensures Survivors(a + b, drop) == Survivors(a, drop) + Survivors(b, drop)
  {
    if a != [] {
      assert (a + b)[1..] == a[1..] + b;
      SurvivorsAppend(a[1..], b, drop);
    } else {
      assert a + b == b;
    }
  }

  /** The positions below `n` that are in `drop`. */
  function DroppedBelow(n: nat, drop: set<nat>): set<nat> {
    set j | 0 <= j < n && j in drop
  }

  /** The column positions of an n-column table that survive removing `drop`. */
  function Kept(n: nat, drop: set<nat>): (r: seq<nat>)
    ensures forall j :: j in r <==> 0 <= j < n && j !in drop
    ensures Increasing(r)
  {
    var all := Range(0, n);
    assert forall j :: 0 <= j < n ==> all[j] == j;
    assert forall j :: j in all <==> 0 <= j < n by {
      forall j | j in all ensures 0 <= j < n {
        var m :| 0 <= m < |all| && all[m] == j;
      }
      forall j | 0 <= j < n ensures j in all {
        assert all[j] == j;
      }
    }
    SurvivorsMembers(all, drop);
    SurvivorsIncreasing(all, drop);
    Survivors(all, drop)
  }

  /** Removing `drop` from n columns leaves n minus the dropped positions that
      exist; positions listed twice or beyond the table count once or not at all. */
  lemma KeptCount(n: nat, drop: set<nat>)
    ensures |Kept(n, drop)| == n - |DroppedBelow(n, drop)|
  {
    SurvivorsRangeCount(n, drop);
  }

  /** The counting argument behind `KeptCount`, one position at a time. */
  lemma {:induction false} SurvivorsRangeCount(n: nat, drop: set<nat>)
    ensures |Survivors(Range(0, n), drop)| == n - |DroppedBelow(n, drop)|
  {
    if n > 0 {
      SurvivorsRangeCount(n - 1, drop);
      assert Range(0, n) == Range(0, n - 1) + [n - 1];
      SurvivorsAppend(Range(0, n - 1), [n - 1], drop);
      var last := Survivors([n - 1], drop);
      assert [n - 1][1..] == [];
      if n - 1 in drop {
        assert last == [];
        assert DroppedBelow(n, drop) == DroppedBelow(n - 1, drop) + {n - 1};
      } else {
        assert last == [n - 1];
        assert DroppedBelow(n, drop) == DroppedBelow(n - 1, drop);
      }
    }
  }

  /** Two increasing sequences holding the same positions are the same
      sequence: the kept positions are determined by which ones survive. */
  lemma {:induction false} IncreasingUnique(a: seq<nat>, b: seq<nat>)
    requires Increasing(a) && Increasing(b)
    requires forall j :: j in a <==> j in b
    ensures a == b
    decreases |a|
  {
    if a == [] {
      assert forall m :: 0 <= m < |b| ==> b[m] in b;
    } else {
      assert a[0] in a && b != [] && b[0] in b;
      var k :| 0 <= k < |b| && b[k] == a[0];
      var l :| 0 <= l < |a| && a[l] == b[0];
      assert a[0] <= a[l] == b[0];
      assert k == 0;
      forall j ensures j in a[1..] <==> j in b[1..] {
        IncreasingTail(a, j);
        IncreasingTail(b, j);
      }
      IncreasingUnique(a[1..], b[1..]);
      assert a == [a[0]] + a[1..] && b == [b[0]] + b[1..];
    }
  }

  /** The tail of an increasing sequence holds everything but its head. */
  lemma IncreasingTail(s: seq<nat>, j: nat)
    requires Increasing(s) && s != []
    ensures j in s[1..] <==> j in s && j != s[0]
  {
    if j in s[1..] {
      var m :| 0 <= m < |s[1..]| && s[1..][m] == j;
      assert s[m + 1] == j;
    }
    if j in s && j != s[0] {
      var m :| 0 <= m < |s| && s[m] == j;
      assert s[1..][m - 1] == j;
    }
  }

  /** The cells of `row` at the positions `keep`, in that order. */
  function Project(row: seq<Cell>, keep: seq<nat>): (r: seq<Cell>)
    requires forall m :: 0 <= m < |keep| ==> keep[m] < |row|
    ensures |r| == |keep|
  {
    seq(|keep|, m requires 0 <= m < |keep| => row[keep[m]])
  }

  /** `t` without the columns at positions `drop`: the same rows, each with the
      surviving cells in their original order. */
  function DropColumns(t: Table, drop: set<nat>): (r: Table)
    requires WellFormed(t)
    ensures WellFormed(r)
    ensures |r.rows| == |t.rows|
    ensures |r.header| == |Kept(|t.header|, drop)| == |t.header| - |DroppedBelow(|t.header|, drop)|
    ensures forall m :: 0 <= m < |r.header| ==>
              Kept(|t.header|, drop)[m] < |t.header|
              && r.header[m] == t.header[Kept(|t.header|, drop)[m]]
              && forall i :: 0 <= i < |t.rows| ==>
                   r.rows[i][m] == t.rows[i][Kept(|t.header|, drop)[m]]
  {
    var keep := Kept(|t.header|, drop);
    KeptCount(|t.header|, drop);
    assert forall m :: 0 <= m < |keep| ==> keep[m] in keep;
    Table(Project(t.header, keep),
          seq(|t.rows|, i requires 0 <= i < |t.rows| => Project(t.rows[i], keep)))
  }

  /** Two equally long columns placed side by side. */
  function Zip(a: seq<Cell>, b: seq<Cell>): (r: seq<Row>)
    requires |a| == |b|
    ensures |r| == |a|
    ensures forall m :: 0 <= m < |r| ==> r[m] == [a[m], b[m]]
  {
    if a == [] then [] else [[a[0], b[0]]] + Zip(a[1..], b[1..])
  }
}

=== FILE: decompose.dfy ===
/** The second stage, `extract_columns_to_workbooks`: a class workbook is cut
    into two-column workbooks, each pairing the first column (the student
    key) with one of the other columns. Both scripts hold the same code. */
module Decompose {
  import opened Tables
  import opened Columns

  /** `pd.concat([df.iloc[:, 0], df.iloc[:, i]], axis=1)`: the key column and
      column `i` side by side, row for row. */
  function KeyAndColumn(t: Table, i: nat): (r: Table)
    requires WellFormed(t) && 0 < i < |t.header|
    ensures WellFormed(r)
    ensures r.header == [t.header[0], t.header[i]]
    ensures |r.rows| == |t.rows|
    ensures forall m :: 0 <= m < |t.rows| ==> r.rows[m] == [t.rows[m][0], t.rows[m][i]]
  {
    Table([t.header[0], t.header[i]], Zip(Column(t.rows, 0), Column(t.rows, i)))
  }

  /** `f"{output_prefix}_{column_name}.xlsx"`. */
  function SubjectFileName(prefix: string, column: string): string {
    prefix + "_" + column + Extension
  }

  /** What `extract_columns_to_workbooks` writes, in order: one workbook for
      each column after the first. A table without columns has no key column
      and stops the run before anything is written. */
  function SubjectEntries(t: Table, prefix: string): Result<seq<Entry>>
    requires WellFormed(t)
  {
    if |t.header| == 0 then Err(NoKeyColumn)
    else Ok(seq(|t.header| - 1, j requires 0 <= j < |t.header| - 1 =>
              Entry(SubjectFileName(prefix, t.header[j + 1]), KeyAndColumn(t, j + 1))))
  }

  /** The outcome and size of a decomposition: it fails exactly on a table
      without columns, and otherwise yields one workbook per column after
      the first. */
  lemma DecomposeCount(t: Table, prefix: string)
    requires WellFormed(t)
    ensures SubjectEntries(t, prefix).Err? <==> |t.header| == 0
    ensures SubjectEntries(t, prefix).Err? ==> SubjectEntries(t, prefix).error == NoKeyColumn
    ensures SubjectEntries(t, prefix).Ok? ==> |SubjectEntries(t, prefix).value| == |t.header| - 1
  {
  }

  /** Decomposing an n-column table yields n-1 workbooks, for columns 1 to
      n-1 in ascending order; the j-th pairs the key column with column j+1
      row for row, keeps the row count, and is named after that column's
      label. A one-column table yields nothing; a table with no column fails. */
  lemma DecomposeShape(t: Table, prefix: string)
    requires WellFormed(t)
    ensures SubjectEntries(t, prefix).Err? <==> |t.header| == 0
    ensures SubjectEntries(t, prefix).Err? ==> SubjectEntries(t, prefix).error == NoKeyColumn
    ensures |t.header| == 1 ==> SubjectEntries(t, prefix) == Ok([])
    ensures SubjectEntries(t, prefix).Ok? ==>
              var es := SubjectEntries(t, prefix).value;
              && |es| == |t.header| - 1
              && forall j :: 0 <= j < |es| ==>
                   && es[j].name == prefix + "_" + t.header[j + 1] + Extension
                   && es[j].table.header == [t.header[0], t.header[j + 1]]
                   && |es[j].table.rows| == |t.rows|
                   && forall m :: 0 <= m < |t.rows| ==>
                        es[j].table.rows[m] == [t.rows[m][0], t.rows[m][j + 1]]
  {
    DecomposeCount(t, prefix);
    if |t.header| > 0 {
      var es := SubjectEntries(t, prefix).value;
      forall j | 0 <= j < |es|
        ensures es[j].name == prefix + "_" + t.header[j + 1] + Extension
        ensures es[j].table == KeyAndColumn(t, j + 1)
      {
        SubjectEntryAt(t, prefix, j);
      }
    }
  }

  /** The j-th workbook of a decomposition, spelled out. */
  lemma SubjectEntryAt(t: Table, prefix: string, j: nat)
    requires WellFormed(t) && j + 1 < |t.header|
    ensures SubjectEntries(t, prefix).Ok? && j < |SubjectEntries(t, prefix).value|
    ensures SubjectEntries(t, prefix).value[j]
              == Entry(prefix + "_" + t.header[j + 1] + Extension,
                       Table([t.header[0], t.header[j + 1]], Zip(Column(t.rows, 0), Column(t.rows, j + 1))))
  {
  }

  /** One iteration of the decomposition loop writes the workbook of
      column `i`. */
  lemma ExtractStep(t: Table, dir: Dir, prefix: string, i: nat)
    requires WellFormed(t) && 0 < i < |t.header|
    ensures SubjectEntries(t, prefix).Ok? && i <= |SubjectEntries(t, prefix).value|
    ensures WriteAll(dir, SubjectEntries(t, prefix).value[..i])
              == WriteAll(dir, SubjectEntries(t, prefix).value[..i - 1])
                   [prefix + "_" + t.header[i] + Extension :=
                      Table([t.header[0], t.header[i]], Zip(Column(t.rows, 0), Column(t.rows, i)))]
  {
    SubjectEntryAt(t, prefix, i - 1);
    WriteAllSnoc(dir, SubjectEntries(t, prefix).value, i - 1);
  }

  /** `extract_columns_to_workbooks`: read the key column once, then for
      i = 1 .. n-1 write the key column beside column i under the name of
      column i. */
  method ExtractColumnsToWorkbooks(t: Table, dir: Dir, prefix: string)
    returns (out: Dir, status: Result<()>)
    requires WellFormed(t)
    ensures SubjectEntries(t, prefix).Err? ==>
              out == dir && status == Err(SubjectEntries(t, prefix).error)
    ensures SubjectEntries(t, prefix).Ok? ==>
              out == WriteAll(dir, SubjectEntries(t, prefix).value) && status == Ok(())
  {
    if |t.header| == 0 {
      return dir, Err(NoKeyColumn);
    }
    var firstColumn := Column(t.rows, 0);
    out := dir;
    for i := 1 to |t.header|
      invariant out == WriteAll(dir, SubjectEntries(t, prefix).value[..i - 1])
    {
      var extracted := Table([t.header[0], t.header[i]], Zip(firstColumn, Column(t.rows, i)));
      var outputFile := prefix + "_" + t.header[i] + Extension;
      ExtractStep(t, dir, prefix, i);
      out := out[outputFile := extracted];
    }
    DecomposeCount(t, prefix);
    assert SubjectEntries(t, prefix).value[..|t.header| - 1] == SubjectEntries(t, prefix).value;
    status := Ok(());
  }
}

=== FILE: names.dfy ===
/** The string operations behind the output file names: cleaning a class
    value (newlines to spaces, then surrounding whitespace stripped, as
    Python's `replace` and `strip` do) and removing every occurrence of the
    extension from a file name. */
module Names {

  /** Python's `str.isspace` for one character: the characters `strip()`
      removes when called without arguments. */
  predicate IsSpace(c: char) {
    || ('\U{9}' <= c <= '\U{D}')
    || ('\U{1C}' <= c <= '\U{20}')
    || c == '\U{85}' || c == '\U{A0}' || c == '\U{1680}'
    || ('\U{2000}' <= c <= '\U{200A}')
    || c == '\U{2028}' || c == '\U{2029}' || c == '\U{202F}'
    || c == '\U{205F}' || c == '\U{3000}'
  }

  /** `s.replace('\n', ' ')`: every newline becomes a space. */
  function NewlinesToSpaces(s: string): (r: string)
    ensures |r| == |s|
    ensures forall i :: 0 <= i < |s| ==> r[i] == (if s[i] == '\n' then ' ' else s[i])
    ensures '\n' !in r
  {
    if s == [] then []
    else [if s[0] == '\n' then ' ' else s[0]] + NewlinesToSpaces(s[1..])
  }

  /** `s.lstrip()`: the longest suffix of `s` not starting with whitespace,
      reached by removing only whitespace. */
  function StripLeading(s: string): (r: string)
    ensures |r| <= |s| && r == s[|s| - |r|..]
    ensures forall m :: 0 <= m < |s| - |r| ==> IsSpace(s[m])
    ensures r == [] || !IsSpace(r[0])
  {
    if s != [] && IsSpace(s[0]) then StripLeading(s[1..]) else s
  }

  /** `s.rstrip()`: the longest prefix of `s` not ending with whitespace,
      reached by removing only whitespace. */
  function StripTrailing(s: string): (r: string)
    ensures |r| <= |s| && r == s[..|r|]
    ensures forall m :: |r| <= m < |s| ==> IsSpace(s[m])
    ensures r == [] || !IsSpace(r[|r| - 1])
  {
    if s != [] && IsSpace(s[|s| - 1]) then StripTrailing(s[..|s| - 1]) else s
  }

  /** `s.strip()`. */
  function Strip(s: string): string {
    StripTrailing(StripLeading(s))
  }

  /** The class value as it appears in a file name:
      `cls.replace('\n', ' ').strip()`. */
  function Clean(s: string): string {
    Strip(NewlinesToSpaces(s))
  }

  /** No whitespace at either end. */
  predicate Trimmed(s: string) {
    s == [] || (!IsSpace(s[0]) && !IsSpace(s[|s| - 1]))
  }

  /** Stripping leaves no whitespace at either end. */
  lemma StripTrimmed(s: string)
    ensures Trimmed(Strip(s))
  {
    var l := StripLeading(s);
    var r := StripTrailing(l);
    if r != [] {
      assert r[0] == l[0];
    }
  }

  /** Stripping yields a contiguous run of `s`. */
  lemma StripIsRun(s: string)
    ensures exists i, j :: 0 <= i <= j <= |s| && Strip(s) == s[i..j]
  {
    var l := StripLeading(s);
    var r := StripTrailing(l);
    var i := |s| - |l|;
    assert l == s[i..];
    assert r == l[..|r|];
    assert s[i..][..|r|] == s[i..i + |r|];
  }

  /** A cleaned name holds no newline and has no surrounding whitespace. */
  lemma CleanShape(s: string)
    ensures '\n' !in Clean(s)
    ensures Trimmed(Clean(s))
  {
    var t := NewlinesToSpaces(s);
    StripTrimmed(t);
    StripIsRun(t);
    var i, j :| 0 <= i <= j <= |t| && Clean(s) == t[i..j];
    assert forall c | c in Clean(s) :: c in t;
  }

  /** Replacing newlines in a string without any changes nothing. */
  lemma {:induction false} NewlinesToSpacesNoop(s: string)
    requires '\n' !in s
    ensures NewlinesToSpaces(s) == s
  {
    if s != [] {
      NewlinesToSpacesNoop(s[1..]);
    }
  }

  /** Stripping a string with no surrounding whitespace changes nothing. */
  lemma StripNoop(s: string)
    requires Trimmed(s)
    ensures Strip(s) == s
  {
  }

  /** Cleaning is idempotent: a cleaned name cleans to itself. */
  lemma CleanIdempotent(s: string)
    ensures Clean(Clean(s)) == Clean(s)
  {
    CleanShape(s);
    NewlinesToSpacesNoop(Clean(s));
    StripNoop(Clean(s));
  }

  /** Replacing newlines works character by character. */
  lemma {:induction false} NewlinesToSpacesSnoc(s: string, c: char)
    ensures NewlinesToSpaces(s + [c]) == NewlinesToSpaces(s) + [if c == '\n' then ' ' else c]
  {
    if s != [] {
      assert (s + [c])[1..] == s[1..] + [c];
      NewlinesToSpacesSnoc(s[1..], c);
    } else {
      assert s + [c] == [c];
    }
  }

  /** Appending whitespace to a string extends its left-stripped form by that
      whitespace, unless the string is whitespace only. */
  lemma {:induction false} StripLeadingSnoc(s: string, c: char)
    requires IsSpace(c)
    ensures StripLeading(s + [c]) == if StripLeading(s) == [] then [] else StripLeading(s) + [c]
  {
    var sc := s + [c];
    if s == [] {
      assert sc == [c] && sc[1..] == [];
    } else if IsSpace(s[0]) {
      assert sc[0] == s[0] && sc[1..] == s[1..] + [c];
      assert StripLeading(sc) == StripLeading(s[1..] + [c]);
      assert StripLeading(s) == StripLeading(s[1..]);
      StripLeadingSnoc(s[1..], c);
    } else {
      assert sc[0] == s[0];
      assert StripLeading(sc) == sc;
      assert StripLeading(s) == s;
    }
  }

  /** A trailing newline does not change the cleaned name. */
  lemma CleanTrailingNewline(s: string)
    ensures Clean(s + "\n") == Clean(s)
  {
    var t := NewlinesToSpaces(s);
    NewlinesToSpacesSnoc(s, '\n');
    StripLeadingSnoc(t, ' ');
    var l := StripLeading(t);
    if l != [] {
      assert (l + [' '])[..|l|] == l;
    }
  }

  /** `pat` occurs in `s` starting at position `i`. */
  predicate OccursAt(s: string, pat: string, i: nat) {
    i + |pat| <= |s| && s[i..i + |pat|] == pat
  }

  /** `pat` does not occur anywhere in `s`. */
  predicate Free(s: string, pat: string) {
    forall i: nat | i <= |s| :: !OccursAt(s, pat, i)
  }

  /** `s.replace(pat, "")`: scanning left to right, every non-overlapping
      occurrence of `pat` is removed. */
  function RemoveAll(s: string, pat: string): (r: string)
    requires pat != []
    ensures |r| <= |s|
    decreases |s|
  {
    if |s| < |pat| then s
    else if s[..|pat|] == pat then RemoveAll(s[|pat|..], pat)
    else [s[0]] + RemoveAll(s[1..], pat)
  }

  /** Dropping the first character cannot create an occurrence. */
  lemma FreeTail(s: string, pat: string)
    requires s != [] && Free(s, pat)
    ensures Free(s[1..], pat)
  {
    forall i: nat | i + |pat| <= |s[1..]| ensures !OccursAt(s[1..], pat, i) {
      assert s[1..][i..i + |pat|] == s[i + 1..i + 1 + |pat|];
      assert !OccursAt(s, pat, i + 1);
    }
  }

  /** A string without `pat` is left alone. */
  lemma {:induction false} RemoveAllFree(s: string, pat: string)
    requires pat != [] && Free(s, pat)
    ensures RemoveAll(s, pat) == s
    decreases |s|
  {
    if |s| >= |pat| {
      assert !OccursAt(s, pat, 0);
      FreeTail(s, pat);
      RemoveAllFree(s[1..], pat);
    }
  }

  /** With `pat` absent from a non-empty `p`, `p + pat` does not start with `pat`
      when the first character of `pat` does not recur in it. */
  lemma NoMatchAtStart(p: string, pat: string)
    requires pat != [] && forall m :: 0 < m < |pat| ==> pat[m] != pat[0]
    requires p != [] && Free(p, pat)
    ensures (p + pat)[..|pat|] != pat
  {
    var s := p + pat;
    if |p| >= |pat| {
      assert s[..|pat|] == p[0..|pat|];
      assert !OccursAt(p, pat, 0);
    } else {
      assert s[|p|] == pat[0];
      assert s[..|pat|][|p|] == s[|p|];
      assert pat[|p|] != pat[0];
    }
  }

  /** Removing a pattern whose first character does not recur in it, from a
      string that ends with it and has it nowhere else, leaves the rest: the
      suffix is taken off and nothing more. */
  lemma {:induction false} RemoveAllSuffix(p: string, pat: string)
    requires pat != [] && forall m :: 0 < m < |pat| ==> pat[m] != pat[0]
    requires Free(p, pat)
    ensures RemoveAll(p + pat, pat) == p
    decreases |p|
  {
    var s := p + pat;
    if p == [] {
      assert s == pat && s[|pat|..] == [];
    } else {
      NoMatchAtStart(p, pat);
      FreeTail(p, pat);
      assert s[1..] == p[1..] + pat;
      RemoveAllSuffix(p[1..], pat);
      assert s == [p[0]] + s[1..];
    }
  }

  /** An occurrence of `pat` before the end is removed as well: after a part
      `p` without `pat`, the occurrence is taken out and the scan goes on
      with what follows it. */
  lemma {:induction false} RemoveAllInfix(p: string, q: string, pat: string)
    requires pat != [] && forall m :: 0 < m < |pat| ==> pat[m] != pat[0]
    requires Free(p, pat)
    ensures RemoveAll(p + pat + q, pat) == p + RemoveAll(q, pat)
    decreases |p|
  {
    var s := p + pat + q;
    if p == [] {
      assert s[..|pat|] == pat && s[|pat|..] == q;
    } else {
      NoMatchBefore(p, q, pat);
      FreeTail(p, pat);
      assert s[1..] == p[1..] + pat + q;
      RemoveAllInfix(p[1..], q, pat);
    }
  }

  /** With `pat` absent from a non-empty `p`, the scan over `p + pat + q`
      keeps the first character of `p`. */
  lemma NoMatchBefore(p: string, q: string, pat: string)
    requires pat != [] && forall m :: 0 < m < |pat| ==> pat[m] != pat[0]
    requires p != [] && Free(p, pat)
    ensures var s := p + pat + q;
            RemoveAll(s, pat) == [s[0]] + RemoveAll(s[1..], pat) && s[0] == p[0]
  {
    var s := p + pat + q;
    NoMatchAtStart(p, pat);
    assert s[..|pat|] == (p + pat)[..|pat|];
    assert s[0] == p[0];
  }

  /** A string without the first character of `pat` does not hold `pat`. */
  lemma FreeOfFirst(s: string, pat: string)
    requires pat != [] && pat[0] !in s
    ensures Free(s, pat)
  {
    forall i: nat | i <= |s| ensures !OccursAt(s, pat, i) {
      if i + |pat| <= |s| {
        assert s[i..i + |pat|][0] == s[i];
      }
    }
  }

  /** Joining two strings without `pat` by a separator that shares no
      character with `pat` gives a string without `pat`. */
  lemma FreeJoin(a: string, sep: string, b: string, pat: string)
    requires pat != [] && Free(a, pat) && Free(b, pat) && sep != []
    requires forall c | c in sep :: c !in pat
    ensures Free(a + sep + b, pat)
  {
    var s := a + sep + b;
    forall i: nat | i + |pat| <= |s| ensures !OccursAt(s, pat, i) {
      var w := s[i..i + |pat|];
      if i + |pat| <= |a| {
        assert w == a[i..i + |pat|];
        assert !OccursAt(a, pat, i);
      } else if i >= |a| + |sep| {
        var i' := i - |a| - |sep|;
        assert s[|a| + |sep|..] == b;
        assert w == s[|a| + |sep|..][i'..i' + |pat|] == b[i'..i' + |pat|];
        assert !OccursAt(b, pat, i');
      } else {
        var m := if i >= |a| then i else |a|;
        assert w[m - i] == sep[m - |a|] && sep[m - |a|] in sep;
        assert w[m - i] !in pat;
      }
    }
  }
}

=== FILE: partition.dfy ===
/** The first stage, `split_class_data`: one workbook per distinct value of
    the 'Class' column, holding that class's rows without a configured list
    of column positions, named from a fixed prefix and the cleaned class
    value. Both scripts run this loop; they differ only in the positions they
    drop and the prefix of the file name, which are parameters here. */
module Partition {
  import opened Tables
  import opened Columns
  import opened Rows
  import opened Names

  const ClassLabel: string := "Class"

  /** A position of an index of width `n` as Python accepts it: negative
      positions count from the end. */
  predicate InBounds(p: int, n: nat) {
    -(n as int) <= p < n
  }

  /** The non-negative position `p` stands for. */
  function Normalize(p: int, n: nat): (j: nat)
    requires InBounds(p, n)
    ensures j < n
    ensures p >= 0 ==> j == p
    ensures p < 0 ==> j + (-p) == n
  {
    if p >= 0 then p else n + p
  }

  /** `columns[positions]`: the positions looked up in an index of width `n`.
      Any position outside the index raises an IndexError; otherwise the
      result is the set of columns they name, a position listed twice or
      named both ways naming one column. */
  function Resolve(ps: seq<int>, n: nat): (r: Result<set<nat>>)
    ensures r.Err? <==> exists m :: 0 <= m < |ps| && !InBounds(ps[m], n)
    ensures r.Err? ==> r.error == IndexOutOfBounds(n)
    ensures r.Ok? ==> forall m :: 0 <= m < |ps| ==> Normalize(ps[m], n) in r.value
    ensures r.Ok? ==> forall j | j in r.value ::
              j < n && exists m :: 0 <= m < |ps| && InBounds(ps[m], n) && Normalize(ps[m], n) == j
  {
    if forall m :: 0 <= m < |ps| ==> InBounds(ps[m], n) then
      Ok(set m | 0 <= m < |ps| :: Normalize(ps[m], n))
    else Err(IndexOutOfBounds(n))
  }

  /** The output file name of a class: the prefix, the cleaned class value
      and the extension. */
  function ClassFileName(prefix: string, cls: Cell): string {
    prefix + Clean(cls) + Extension
  }

  /** The rows of `df` whose key cell (position `k`) equals `cls`, without
      the columns at positions `drop`. */
  function ClassTable(df: Table, k: nat, cls: Cell, drop: set<nat>): (t: Table)
    requires WellFormed(df) && k < |df.header|
    ensures WellFormed(t)
    ensures |t.rows| == |SelectRows(df.rows, k, cls)|
    ensures |t.header| == |df.header| - |DroppedBelow(|df.header|, drop)|
    ensures |t.header| == |Kept(|df.header|, drop)|
    ensures forall m :: 0 <= m < |Kept(|df.header|, drop)| ==>
              Kept(|df.header|, drop)[m] < |df.header|
              && t.header[m] == df.header[Kept(|df.header|, drop)[m]]
              && forall r :: 0 <= r < |t.rows| ==>
                   t.rows[r][m] == SelectRows(df.rows, k, cls)[r][Kept(|df.header|, drop)[m]]
  {
    DropColumns(Table(df.header, SelectRows(df.rows, k, cls)), drop)
  }

  /** The workbook written for each class in `classes`, in that order. */
  function ClassEntries(df: Table, k: nat, classes: seq<Cell>, drop: set<nat>, prefix: string)
    : (es: seq<Entry>)
    requires WellFormed(df) && k < |df.header|
    ensures |es| == |classes|
  {
    seq(|classes|, i requires 0 <= i < |classes| =>
      Entry(ClassFileName(prefix, classes[i]), ClassTable(df, k, classes[i], drop)))
  }

  /** The class value of every row of `df`, top to bottom, when the key column is at position `k`. */
  function KeyColumn(df: Table, k: nat): seq<Cell>
    requires WellFormed(df) && k < |df.header|
  {
    Column(df.rows, k)
  }

  /** What `split_class_data` writes, in order, or the error that stops it.
      The positions are looked up inside the loop, so a table without rows
      writes nothing and never fails on them. */
  function SplitEntries(df: Table, positions: seq<int>, prefix: string): Result<seq<Entry>>
    requires WellFormed(df)
  {
    match IndexOf(df.header, ClassLabel)
    case None => Err(MissingColumn(ClassLabel))
    case Some(k) =>
      var classes := Unique(KeyColumn(df, k));
      if classes == [] then Ok([])
      else match Resolve(positions, |df.header|)
           case Err(e) => Err(e)
           case Ok(drop) => Ok(ClassEntries(df, k, classes, drop, prefix))
  }

  /** The run stops exactly when the 'Class' label is missing, or when the
      table has rows and a drop position lies outside it; with the label
      missing the error says so. Otherwise one workbook is written per
      distinct class value. */
  lemma SplitErrors(df: Table, positions: seq<int>, prefix: string)
    requires WellFormed(df)
    ensures var r := SplitEntries(df, positions, prefix);
            && (r.Err? <==> ClassLabel !in df.header
                            || (df.rows != [] && exists m :: 0 <= m < |positions| && !InBounds(positions[m], |df.header|)))
            && (ClassLabel !in df.header ==> r == Err(MissingColumn(ClassLabel)))
            && (r.Ok? ==> |r.value| == |Unique(KeyColumn(df, IndexOf(df.header, ClassLabel).value))|)
  {
    if ClassLabel in df.header {
      var k := IndexOf(df.header, ClassLabel).value;
      UniqueMembers(KeyColumn(df, k));
      assert df.rows != [] ==> KeyColumn(df, k)[0] in Unique(KeyColumn(df, k));
    }
  }

  /** `split_class_data`'s loop: for each distinct class value in order of
      first appearance, select its rows, drop the configured columns and
      write the result under the class's file name; the list of file names
      written is returned. On an error nothing is written. */
  method SplitClassData(df: Table, dir: Dir, positions: seq<int>, prefix: string)
    returns (out: Dir, saved: Result<seq<string>>)
    requires WellFormed(df)
    ensures SplitEntries(df, positions, prefix).Err? ==>
              out == dir && saved == Err(SplitEntries(df, positions, prefix).error)
    ensures SplitEntries(df, positions, prefix).Ok? ==>
              out == WriteAll(dir, SplitEntries(df, positions, prefix).value)
              && saved == Ok(FileNames(SplitEntries(df, positions, prefix).value))
  {
    var key := IndexOf(df.header, ClassLabel);
    if key.None? {
      return dir, Err(MissingColumn(ClassLabel));
    }
    var k := key.value;
    var classes := Unique(KeyColumn(df, k));
    var names: seq<string> := [];
    out := dir;
    for i := 0 to |classes|
      invariant i > 0 ==> Resolve(positions, |df.header|).Ok?
      invariant i > 0 ==>
                  var es := ClassEntries(df, k, classes, Resolve(positions, |df.header|).value, prefix);
                  out == WriteAll(dir, es[..i]) && names == FileNames(es[..i])
      invariant i == 0 ==> out == dir && names == []
    {
      var cls := classes[i];
      var drop := Resolve(positions, |df.header|);
      if drop.Err? {
        return dir, Err(drop.error);
      }
      var classTable := ClassTable(df, k, cls, drop.value);
      var filename := ClassFileName(prefix, cls);
      SplitStep(df, k, classes, drop.value, prefix, dir, i);
      out := out[filename := classTable];
      names := names + [filename];
    }
    if classes != [] {
      ghost var es := ClassEntries(df, k, classes, Resolve(positions, |df.header|).value, prefix);
      assert SplitEntries(df, positions, prefix) == Ok(es);
      assert es[..|classes|] == es;
    }
    saved := Ok(names);
  }

  /** One iteration of the split loop writes the workbook of the i-th class
      value and records its name. */
  lemma SplitStep(df: Table, k: nat, classes: seq<Cell>, drop: set<nat>, prefix: string, dir: Dir, i: nat)
    requires WellFormed(df) && k < |df.header| && i < |classes|
    ensures var es := ClassEntries(df, k, classes, drop, prefix);
            && WriteAll(dir, es[..i + 1])
                 == WriteAll(dir, es[..i])[ClassFileName(prefix, classes[i]) := ClassTable(df, k, classes[i], drop)]
            && FileNames(es[..i + 1]) == FileNames(es[..i]) + [ClassFileName(prefix, classes[i])]
  {
    WriteAllSnoc(dir, ClassEntries(df, k, classes, drop, prefix), i);
  }

  /** The file names follow the class values: the i-th file written is named
      after the i-th distinct class value. */
  lemma SplitNamesFollowClasses(df: Table, positions: seq<int>, prefix: string, i: nat)
    requires WellFormed(df)
    requires SplitEntries(df, positions, prefix).Ok?
    requires i < |SplitEntries(df, positions, prefix).value|
    ensures ClassLabel in df.header
    ensures var k := IndexOf(df.header, ClassLabel).value;
            var cls := Unique(KeyColumn(df, k))[i];
            SplitEntries(df, positions, prefix).value[i].name == prefix + Clean(cls) + Extension
            && cls in KeyColumn(df, k)
  {
    var k := IndexOf(df.header, ClassLabel).value;
    UniqueMembers(KeyColumn(df, k));
    assert Unique(KeyColumn(df, k))[i] in Unique(KeyColumn(df, k));
  }

  /** Each class workbook holds exactly the rows of its class, in input
      order, without the dropped columns; every surviving column keeps its
      position relative to the others. */
  lemma SplitClassRows(df: Table, positions: seq<int>, prefix: string, i: nat)
    requires WellFormed(df)
    requires SplitEntries(df, positions, prefix).Ok?
    requires i < |SplitEntries(df, positions, prefix).value|
    ensures ClassLabel in df.header
    ensures var k := IndexOf(df.header, ClassLabel).value;
            var t := SplitEntries(df, positions, prefix).value[i].table;
            var sel := SelectRows(df.rows, k, Unique(KeyColumn(df, k))[i]);
            var keep := Kept(|df.header|, Resolve(positions, |df.header|).value);
            && |t.rows| == |sel|
            && (forall x | x in sel :: x in df.rows && x[k] == Unique(KeyColumn(df, k))[i])
            && |t.header| == |keep|
            && (forall m :: 0 <= m < |keep| ==> keep[m] < |df.header| && t.header[m] == df.header[keep[m]])
            && forall r, m :: 0 <= r < |t.rows| && 0 <= m < |keep| ==>
                 keep[m] < |sel[r]| && t.rows[r][m] == sel[r][keep[m]]
  {
    var k := IndexOf(df.header, ClassLabel).value;
    var u := Unique(KeyColumn(df, k));
    var drop := Resolve(positions, |df.header|).value;
    var sel := SelectRows(df.rows, k, u[i]);
    ClassEntryAt(df, k, u, drop, prefix, i);
    assert SplitEntries(df, positions, prefix).value[i].table == DropColumns(Table(df.header, sel), drop);
    forall r | 0 <= r < |sel| ensures sel[r] in sel {
    }
  }

  /** The i-th workbook of the split, spelled out. */
  lemma ClassEntryAt(df: Table, k: nat, classes: seq<Cell>, drop: set<nat>, prefix: string, i: nat)
    requires WellFormed(df) && k < |df.header| && i < |classes|
    ensures ClassEntries(df, k, classes, drop, prefix)[i]
              == Entry(ClassFileName(prefix, classes[i]),
                       DropColumns(Table(df.header, SelectRows(df.rows, k, classes[i])), drop))
  {
  }

  /** The class workbooks together hold as many rows as the input, and each
      input row is in the workbook of exactly one class value. */
  lemma SplitPartitionsInput(df: Table, positions: seq<int>, prefix: string, j: nat)
    requires WellFormed(df)
    requires SplitEntries(df, positions, prefix).Ok?
    requires j < |df.rows|
    ensures ClassLabel in df.header
    ensures var k := IndexOf(df.header, ClassLabel).value;
            var u := Unique(KeyColumn(df, k));
            && |ClassRows(df.rows, k, u)| == |df.rows|
            && multiset(ClassRows(df.rows, k, u)) == multiset(df.rows)
            && df.rows[j][k] in u
            && forall b :: 0 <= b < |u| ==>
                 (df.rows[j] in SelectRows(df.rows, k, u[b]) <==> b == FirstIndex(u, df.rows[j][k]))
  {
    var k := IndexOf(df.header, ClassLabel).value;
    SplitPartitionsRows(df.rows, k);
    EachRowInOneClass(df.rows, k, j);
  }

  /** Two class values get the same file name exactly when they clean to the
      same string. */
  lemma ClassFileNameCollision(prefix: string, c1: Cell, c2: Cell)
    ensures ClassFileName(prefix, c1) == ClassFileName(prefix, c2) <==> Clean(c1) == Clean(c2)
  {
    var n1, n2 := ClassFileName(prefix, c1), ClassFileName(prefix, c2);
    if n1 == n2 {
      assert |Clean(c1)| == |Clean(c2)|;
      assert Clean(c1) == n1[|prefix|..|n1| - |Extension|];
      assert Clean(c2) == n2[|prefix|..|n2| - |Extension|];
    }
  }

  /** Last write wins: the file of a class holds the table of the last class
      value, in order of first appearance, that cleans to the same name. */
  lemma SplitLastClassWins(df: Table, dir: Dir, positions: seq<int>, prefix: string, i: nat, l: nat)
    requires WellFormed(df)
    requires SplitEntries(df, positions, prefix).Ok?
    requires i <= l < |SplitEntries(df, positions, prefix).value|
    requires ClassLabel in df.header
    requires var u := Unique(KeyColumn(df, IndexOf(df.header, ClassLabel).value));
             Clean(u[l]) == Clean(u[i]) && forall m :: l < m < |u| ==> Clean(u[m]) != Clean(u[i])
    ensures var es := SplitEntries(df, positions, prefix).value;
            es[i].name in WriteAll(dir, es) && WriteAll(dir, es)[es[i].name] == es[l].table
  {
    var k := IndexOf(df.header, ClassLabel).value;
    var u := Unique(KeyColumn(df, k));
    var drop := Resolve(positions, |df.header|).value;
    var es := SplitEntries(df, positions, prefix).value;
    assert es == ClassEntries(df, k, u, drop, prefix);
    ClassFileNameCollision(prefix, u[l], u[i]);
    forall m | l < m < |es| ensures es[m].name != es[l].name {
      ClassFileNameCollision(prefix, u[m], u[l]);
    }
    WriteAllLastWins(dir, es, l);
  }

  /** A class value and the same value with a trailing newline are two
      classes of `unique()` but share one file name, so the workbook written
      second replaces the first. */
  lemma TrailingNewlineCollides(prefix: string, cls: Cell)
    ensures cls + "\n" != cls
    ensures ClassFileName(prefix, cls + "\n") == ClassFileName(prefix, cls)
  {
    assert |cls + "\n"| != |cls|;
    CleanTrailingNewline(cls);
  }
}

=== FILE: pipeline.dfy ===
/** The loop of `process_class_data` that runs after the split: each saved
    class workbook is read back and decomposed into the final directory,
    under a prefix derived from the workbook's own file name. */
module Pipeline {
  import opened Tables
  import opened Names
  import opened Decompose
  import opened Partition

  /** `os.path.basename(saved_file).replace(".xlsx", "")`: every occurrence
      of the extension is removed, not only the final one. */
  function SubjectPrefix(savedFile: string): string {
    RemoveAll(savedFile, Extension)
  }

  /** The extension starts with a character that does not recur in it, and
      holds neither of the separators the scripts put into names. */
  lemma ExtensionFacts()
    ensures Extension != [] && forall m :: 0 < m < |Extension| ==> Extension[m] != Extension[0]
    ensures forall c | c in "_" :: c !in Extension
    ensures forall c | c in " " :: c !in Extension
  {
  }

  /** A saved name made of two extension-free parts joined by an underscore
      or a space, plus the extension, gives back exactly its stem. */
  lemma StemRoundTrip(a: string, sep: string, b: string)
    requires sep == "_" || sep == " "
    requires Free(a, Extension) && Free(b, Extension)
    ensures SubjectPrefix(a + sep + b + Extension) == a + sep + b
  {
    ExtensionFacts();
    FreeJoin(a, sep, b, Extension);
    RemoveAllSuffix(a + sep + b, Extension);
  }

  /** A stem without the extension, followed by the extension twice, gives
      back the stem: both occurrences are removed. */
  lemma DoubleExtension(stem: string)
    requires Free(stem, Extension)
    ensures SubjectPrefix(stem + Extension + Extension) == stem
  {
    ExtensionFacts();
    RemoveAllInfix(stem, Extension, Extension);
    RemoveAllSuffix([], Extension);
    assert [] + Extension == Extension;
  }

  /** Every saved name is a workbook of the class directory that can be
      read back as a table. */
  predicate Readable(classDir: Dir, saved: seq<string>) {
    forall m :: 0 <= m < |saved| ==> saved[m] in classDir && WellFormed(classDir[saved[m]])
  }

  /** What the loop writes for the saved files in order, and whether it
      finished: a decomposition that fails stops the loop, keeping what the
      earlier files wrote. */
  function ProcessOutputs(classDir: Dir, saved: seq<string>): (seq<Entry>, Result<()>)
    requires Readable(classDir, saved)
    decreases |saved|
  {
    if saved == [] then ([], Ok(()))
    else
      var (written, status) := ProcessOutputs(classDir, saved[..|saved| - 1]);
      var f := saved[|saved| - 1];
      if status.Err? then (written, status)
      else match SubjectEntries(classDir[f], SubjectPrefix(f))
           case Err(e) => (written, Err(e))
           case Ok(es) => (written + es, Ok(()))
  }

  /** A prefix of readable names is readable. */
  lemma ReadablePrefix(classDir: Dir, saved: seq<string>, i: nat)
    requires Readable(classDir, saved) && i <= |saved|
    ensures Readable(classDir, saved[..i])
  {
  }

  /** One more saved file: the loop body of `process_class_data`. */
  lemma ProcessOutputsStep(classDir: Dir, saved: seq<string>, i: nat)
    requires Readable(classDir, saved) && i < |saved|
    ensures Readable(classDir, saved[..i]) && saved[i] in classDir && WellFormed(classDir[saved[i]])
    ensures var (written, status) := ProcessOutputs(classDir, saved[..i]);
            var f := saved[i];
            ProcessOutputs(classDir, saved[..i + 1]) ==
              if status.Err? then (written, status)
              else match SubjectEntries(classDir[f], SubjectPrefix(f))
                   case Err(e) => (written, Err(e))
                   case Ok(es) => (written + es, Ok(()))
  {
    ReadablePrefix(classDir, saved, i);
    assert saved[..i + 1][..i] == saved[..i];
  }

  /** Once a file fails, later files change nothing. */
  lemma {:induction false} ProcessStopsAtError(classDir: Dir, saved: seq<string>, i: nat)
    requires Readable(classDir, saved) && i <= |saved|
    requires ProcessOutputs(classDir, saved[..i]).1.Err?
    ensures ProcessOutputs(classDir, saved) == ProcessOutputs(classDir, saved[..i])
    decreases |saved| - i
  {
    if i < |saved| {
      var p := saved[..|saved| - 1];
      assert p[..i] == saved[..i];
      if i < |saved| - 1 {
        ProcessStopsAtError(classDir, p, i);
      } else {
        assert p == saved[..i];
      }
    } else {
      assert saved[..i] == saved;
    }
  }

  /** Every saved workbook has a key column. */
  predicate AllKeyed(classDir: Dir, saved: seq<string>)
    requires Readable(classDir, saved)
  {
    forall m :: 0 <= m < |saved| ==> |classDir[saved[m]].header| > 0
  }

  /** The loop finishes exactly when every saved workbook has a key column,
      and then writes one subject workbook per column after the first of
      each; otherwise it stops on the missing key column. */
  lemma {:induction false} ProcessOutputsCount(classDir: Dir, saved: seq<string>)
    requires Readable(classDir, saved)
    ensures ProcessOutputs(classDir, saved).1.Ok? <==> AllKeyed(classDir, saved)
    ensures ProcessOutputs(classDir, saved).1.Ok? ==>
              |ProcessOutputs(classDir, saved).0| == SubjectCount(classDir, saved)
    ensures ProcessOutputs(classDir, saved).1.Err? ==>
              ProcessOutputs(classDir, saved).1.error == NoKeyColumn
    decreases |saved|
  {
    if saved != [] {
      var n := |saved| - 1;
      var p, f := saved[..n], saved[n];
      ProcessOutputsStep(classDir, saved, n);
      assert saved[..n + 1] == saved;
      ProcessOutputsCount(classDir, p);
      var prev := ProcessOutputs(classDir, p);
      var t := classDir[f];
      DecomposeCount(t, SubjectPrefix(f));
      AllKeyedSnoc(classDir, saved);
      if prev.1.Ok? && |t.header| > 0 {
        assert ProcessOutputs(classDir, saved).0 == prev.0 + SubjectEntries(t, SubjectPrefix(f)).value;
      }
    }
  }

  /** Every saved workbook has a key column when the earlier ones do and the
      last one does. */
  lemma AllKeyedSnoc(classDir: Dir, saved: seq<string>)
    requires Readable(classDir, saved) && saved != []
    ensures Readable(classDir, saved[..|saved| - 1])
    ensures AllKeyed(classDir, saved) <==>
              AllKeyed(classDir, saved[..|saved| - 1]) && |classDir[saved[|saved| - 1]].header| > 0
  {
    ReadablePrefix(classDir, saved, |saved| - 1);
  }

  /** When the first saved workbook has no column, the loop stops on it
      before writing anything. */
  lemma FirstWithoutKeyStops(classDir: Dir, saved: seq<string>)
    requires Readable(classDir, saved) && saved != []
    requires |classDir[saved[0]].header| == 0
    ensures ProcessOutputs(classDir, saved) == ([], Err(NoKeyColumn))
  {
    ProcessOutputsStep(classDir, saved, 0);
    assert saved[..0] == [];
    ProcessStopsAtError(classDir, saved, 1);
  }

  /** The number of subject workbooks the saved files yield: one per column
      after the first. */
  function SubjectCount(classDir: Dir, saved: seq<string>): nat
    requires Readable(classDir, saved)
    decreases |saved|
  {
    if saved == [] then 0
    else
      var t := classDir[saved[|saved| - 1]];
      SubjectCount(classDir, saved[..|saved| - 1]) + (if |t.header| == 0 then 0 else |t.header| - 1)
  }

  /** The loop of `process_class_data`: for each saved class workbook, derive
      the prefix from its name, read it back and decompose it into the final
      directory; the first failure stops the loop. */
  method ProcessSavedFiles(classDir: Dir, saved: seq<string>, finalDir: Dir)
    returns (out: Dir, status: Result<()>)
    requires Readable(classDir, saved)
    ensures out == WriteAll(finalDir, ProcessOutputs(classDir, saved).0)
    ensures status == ProcessOutputs(classDir, saved).1
  {
    out := finalDir;
    for i := 0 to |saved|
      invariant ProcessOutputs(classDir, saved[..i]).1.Ok?
      invariant out == WriteAll(finalDir, ProcessOutputs(classDir, saved[..i]).0)
    {
      var savedFile := saved[i];
      var className := SubjectPrefix(savedFile);
      var classTable := classDir[savedFile];
      var r;
      ghost var before := out;
      ProcessOutputsStep(classDir, saved, i);
      out, r := ExtractColumnsToWorkbooks(classTable, out, className);
      if r.Err? {
        ProcessStopsAtError(classDir, saved, i + 1);
        assert out == before;
        return out, r;
      }
      WriteAllAppend(finalDir, ProcessOutputs(classDir, saved[..i]).0,
                     SubjectEntries(classTable, className).value);
    }
    assert saved[..|saved|] == saved;
    status := Ok(());
  }

  /** The split hands over names whose workbooks can be read back: every
      name written is in the directory and holds one of the tables written. */
  lemma WrittenReadable(dir: Dir, es: seq<Entry>)
    requires forall m :: 0 <= m < |es| ==> WellFormed(es[m].table)
    ensures Readable(WriteAll(dir, es), FileNames(es))
  {
    forall m | 0 <= m < |es|
      ensures es[m].name in WriteAll(dir, es) && WellFormed(WriteAll(dir, es)[es[m].name])
    {
      var l := LastWith(es, es[m].name, m);
      WriteAllLastWins(dir, es, l);
    }
  }

  /** Every class workbook the split writes can be read back as a table. */
  lemma SplitWellFormed(df: Table, positions: seq<int>, prefix: string)
    requires WellFormed(df) && SplitEntries(df, positions, prefix).Ok?
    ensures forall m :: 0 <= m < |SplitEntries(df, positions, prefix).value| ==>
              WellFormed(SplitEntries(df, positions, prefix).value[m].table)
  {
  }

  /** `process_class_data`: split the table into class workbooks in the class
      directory, then decompose every saved workbook, read back from that
      directory, into the final directory. A failing split writes nothing;
      otherwise the final directory receives the subject workbooks of the
      saved files in order, up to the first one that fails. */
  method ProcessClassData(df: Table, classDir: Dir, finalDir: Dir, positions: seq<int>, prefix: string)
    returns (classOut: Dir, finalOut: Dir, status: Result<()>)
    requires WellFormed(df)
    ensures SplitEntries(df, positions, prefix).Err? ==>
              classOut == classDir && finalOut == finalDir
              && status == Err(SplitEntries(df, positions, prefix).error)
    ensures SplitEntries(df, positions, prefix).Ok? ==>
              var saved := FileNames(SplitEntries(df, positions, prefix).value);
              && classOut == WriteAll(classDir, SplitEntries(df, positions, prefix).value)
              && Readable(classOut, saved)
              && finalOut == WriteAll(finalDir, ProcessOutputs(classOut, saved).0)
              && status == ProcessOutputs(classOut, saved).1
  {
    var saved;
    classOut, saved := SplitClassData(df, classDir, positions, prefix);
    if saved.Err? {
      return classOut, finalDir, Err(saved.error);
    }
    ghost var es := SplitEntries(df, positions, prefix).value;
    SplitWellFormed(df, positions, prefix);
    WrittenReadable(classDir, es);
    finalOut, status := ProcessSavedFiles(classOut, saved.value, finalDir);
  }
}

=== FILE: rows.dfy ===
/** Row-wise views of a table: finding a column by its label, the distinct
    values of a column in order of first appearance, and selecting the rows
    whose key cell equals a value. */
module Rows {
  import opened Tables
  import opened Columns

  /** Every row has a cell at position `k`. */
  predicate Keyed(rows: seq<Row>, k: nat) {
    forall r | r in rows :: k < |r|
  }

  /** No value occurs twice. */
  predicate NoDuplicates(s: seq<Cell>) {
    forall a, b :: 0 <= a < b < |s| ==> s[a] != s[b]
  }

  /** The position of the first column labelled `name`, or None when no
      column has that label. */
  function IndexOf(header: seq<string>, name: string): (r: Option<nat>)
    ensures r.None? <==> name !in header
    ensures r.Some? ==> r.value < |header| && header[r.value] == name
                        && forall m :: 0 <= m < r.value ==> header[m] != name
  {
    if header == [] then None
    else if header[0] == name then Some(0)
    else match IndexOf(header[1..], name)
         case None => None
         case Some(m) => Some(m + 1)
  }

  /** The position at which `x` first occurs in `s`. */
  function FirstIndex(s: seq<Cell>, x: Cell): (i: nat)
    requires x in s
    ensures i < |s| && s[i] == x
    ensures forall m :: 0 <= m < i ==> s[m] != x
  {
    if s[0] == x then 0 else 1 + FirstIndex(s[1..], x)
  }

  /** The distinct values of `s`, each once, in order of first appearance. */
  function Unique(s: seq<Cell>): (u: seq<Cell>)
    ensures |u| <= |s|
  {
    if s == [] then []
    else
      var u := Unique(s[..|s| - 1]);
      if s[|s| - 1] in u then u else u + [s[|s| - 1]]
  }

  /** Every value of `s` is listed, and nothing else. */
  lemma {:induction false} UniqueMembers(s: seq<Cell>)
    ensures forall x :: x in Unique(s) <==> x in s
  {
    if s != [] {
      UniqueMembers(s[..|s| - 1]);
      assert s == s[..|s| - 1] + [s[|s| - 1]];
    }
  }

  /** No value is listed twice. */
  lemma {:induction false} UniqueNoDuplicates(s: seq<Cell>)
    ensures NoDuplicates(Unique(s))
  {
    if s != [] {
      UniqueNoDuplicates(s[..|s| - 1]);
    }
  }

  /** Values are listed in the order in which they first appear in `s`. */
  lemma {:induction false} UniqueFirstAppearance(s: seq<Cell>)
    ensures forall x | x in Unique(s) :: x in s
    ensures forall a, b :: 0 <= a < b < |Unique(s)| ==>
              FirstIndex(s, Unique(s)[a]) < FirstIndex(s, Unique(s)[b])
  {
    UniqueMembers(s);
    if s != [] {
      var p, last := s[..|s| - 1], s[|s| - 1];
      assert s == p + [last];
      UniqueFirstAppearance(p);
      forall a, b | 0 <= a < b < |Unique(s)|
        ensures FirstIndex(s, Unique(s)[a]) < FirstIndex(s, Unique(s)[b])
      {
        UniqueOrderStep(p, last, a, b);
      }
    }
  }

  /** One step of the induction above: appending one value keeps the order of
      the values already listed and puts a new value last. */
  lemma UniqueOrderStep(p: seq<Cell>, last: Cell, a: nat, b: nat)
    requires a < b < |Unique(p + [last])|
    requires forall x | x in Unique(p) :: x in p
    requires forall a', b' :: 0 <= a' < b' < |Unique(p)| ==>
               FirstIndex(p, Unique(p)[a']) < FirstIndex(p, Unique(p)[b'])
    ensures Unique(p + [last])[a] in p + [last] && Unique(p + [last])[b] in p + [last]
    ensures FirstIndex(p + [last], Unique(p + [last])[a])
              < FirstIndex(p + [last], Unique(p + [last])[b])
  {
    var s := p + [last];
    var u := Unique(p);
    assert s[..|s| - 1] == p;
    assert Unique(s)[a] == u[a] && u[a] in p;
    FirstIndexPrefix(p, s, u[a]);
    if b < |u| {
      assert Unique(s)[b] == u[b] && u[b] in p;
      FirstIndexPrefix(p, s, u[b]);
    } else {
      assert Unique(s)[b] == last && last !in u;
      UniqueMembers(p);
      FirstIndexIsFirst(s, last, |s| - 1);
    }
  }

  /** A value already present in a prefix is first found there. */
  lemma FirstIndexPrefix(p: seq<Cell>, s: seq<Cell>, x: Cell)
    requires x in p && p <= s
    ensures x in s && FirstIndex(s, x) == FirstIndex(p, x)
  {
    FirstIndexIsFirst(s, x, FirstIndex(p, x));
  }

  /** A position holding `x` with no earlier `x` is the first index of `x`. */
  lemma FirstIndexIsFirst(s: seq<Cell>, x: Cell, i: nat)
    requires i < |s| && s[i] == x
    requires forall m :: 0 <= m < i ==> s[m] != x
    ensures FirstIndex(s, x) == i
  {
  }

  /** The rows whose cell at position `k` equals `c`, in their original order
      (the boolean mask `df[df['Class'] == cls]`). */
  function SelectRows(rows: seq<Row>, k: nat, c: Cell): (r: seq<Row>)
    requires Keyed(rows, k)
    ensures |r| <= |rows|
    ensures forall x | x in r :: x in rows && x[k] == c
  {
    if rows == [] then []
    else (if rows[0][k] == c then [rows[0]] else []) + SelectRows(rows[1..], k, c)
  }

  /** Selection commutes with concatenation, so relative row order is kept. */
  lemma {:induction false} SelectRowsAppend(a: seq<Row>, b: seq<Row>, k: nat, c: Cell)
    requires Keyed(a, k) && Keyed(b, k)
    ensures Keyed(a + b, k)
    ensures SelectRows(a + b, k, c) == SelectRows(a, k, c) + SelectRows(b, k, c)
  {
    assert Keyed(a + b, k);
    if a == [] {
      assert a + b == b;
    } else {
      var t := a[1..];
      assert Keyed(t, k) && a == [a[0]] + t && a + b == [a[0]] + (t + b);
      SelectRowsAppend(t, b, k, c);
      SelectRowsCons(a[0], t, k, c);
      SelectRowsCons(a[0], t + b, k, c);
      var h := if a[0][k] == c then [a[0]] else [];
      var st, sb := SelectRows(t, k, c), SelectRows(b, k, c);
      assert SelectRows(a + b, k, c) == h + (st + sb);
      Associative(h, st, sb);
    }
  }

  /** Concatenation of rows is associative. */
  lemma Associative(x: seq<Row>, y: seq<Row>, z: seq<Row>)
    ensures x + (y + z) == (x + y) + z
  {
  }

  /** Selecting from a row followed by more rows. */
  lemma SelectRowsCons(x: Row, rest: seq<Row>, k: nat, c: Cell)
    requires k < |x| && Keyed(rest, k)
    ensures Keyed([x] + rest, k)
    ensures SelectRows([x] + rest, k, c) == (if x[k] == c then [x] else []) + SelectRows(rest, k, c)
  {
    assert ([x] + rest)[0] == x && ([x] + rest)[1..] == rest;
  }

  /** Each row with key `c` is selected as often as it occurs; no other row is. */
  lemma {:induction false} SelectRowsCount(rows: seq<Row>, k: nat, c: Cell)
    requires Keyed(rows, k)
    ensures forall x :: multiset(SelectRows(rows, k, c))[x] ==
                          if k < |x| && x[k] == c then multiset(rows)[x] else 0
  {
    if rows != [] {
      SelectRowsCount(rows[1..], k, c);
      assert rows == [rows[0]] + rows[1..];
    }
  }

  /** The rows of every class in `cs`, one class after the other. */
  function ClassRows(rows: seq<Row>, k: nat, cs: seq<Cell>): seq<Row>
    requires Keyed(rows, k)
  {
    if cs == [] then [] else SelectRows(rows, k, cs[0]) + ClassRows(rows, k, cs[1..])
  }

  /** With distinct class values, a row occurs among the class tables as often
      as in the input when its key is one of them, and not at all otherwise. */
  lemma {:induction false} ClassRowsCount(rows: seq<Row>, k: nat, cs: seq<Cell>)
    requires Keyed(rows, k) && NoDuplicates(cs)
    ensures forall x :: multiset(ClassRows(rows, k, cs))[x] ==
                          if k < |x| && x[k] in cs then multiset(rows)[x] else 0
  {
    if cs != [] {
      ClassRowsCount(rows, k, cs[1..]);
      SelectRowsCount(rows, k, cs[0]);
      assert cs == [cs[0]] + cs[1..];
    }
  }

  /** Splitting by the distinct key values is a partition: the class selections
      together hold every input row exactly as often as the input does. */
  lemma SplitPartitionsRows(rows: seq<Row>, k: nat)
    requires Keyed(rows, k)
    ensures multiset(ClassRows(rows, k, Unique(Column(rows, k)))) == multiset(rows)
    ensures |ClassRows(rows, k, Unique(Column(rows, k)))| == |rows|
  {
    var col := Column(rows, k);
    var u := Unique(col);
    UniqueMembers(col);
    UniqueNoDuplicates(col);
    ClassRowsCount(rows, k, u);
    forall x ensures multiset(ClassRows(rows, k, u))[x] == multiset(rows)[x] {
      if x in rows {
        var i :| 0 <= i < |rows| && rows[i] == x;
        assert col[i] == x[k];
      }
    }
    assert multiset(ClassRows(rows, k, u)) == multiset(rows);
  }

  /** Each input row lands in the table of exactly one distinct key value:
      the one at the position of its own key among the distinct values. */
  lemma EachRowInOneClass(rows: seq<Row>, k: nat, i: nat)
    requires Keyed(rows, k) && i < |rows|
    ensures rows[i][k] in Unique(Column(rows, k))
    ensures forall b :: 0 <= b < |Unique(Column(rows, k))| ==>
              (rows[i] in SelectRows(rows, k, Unique(Column(rows, k))[b])
               <==> b == FirstIndex(Unique(Column(rows, k)), rows[i][k]))
  {
    var col := Column(rows, k);
    var u := Unique(col);
    UniqueMembers(col);
    UniqueNoDuplicates(col);
    assert col[i] == rows[i][k];
    var a := FirstIndex(u, rows[i][k]);
    forall b | 0 <= b < |u|
      ensures rows[i] in SelectRows(rows, k, u[b]) <==> b == a
    {
      SelectRowsCount(rows, k, u[b]);
      assert multiset(rows)[rows[i]] > 0;
    }
  }
}

=== FILE: tables.dfy ===
/** The data the scripts pass around: a worksheet read into a table (a header
    row of column labels plus data rows), the errors that abort a run, and an
    output directory of named workbooks in which a later write replaces an
    earlier one of the same name. */
module Tables {

  /** A cell value as text; the model treats every cell as a string. */
  type Cell = string
  type Row = seq<Cell>

  /** A worksheet: column labels in order and rows in order. */
  datatype Table = Table(header: seq<string>, rows: seq<Row>)

  /** Every row holds exactly one value per column label. */
  predicate WellFormed(t: Table) {
    forall r | r in t.rows :: |r| == |t.header|
  }

  /** Why a run stops. */
  datatype Error =
    | MissingColumn(column: string)  // the 'Class' label is not a column
    | IndexOutOfBounds(width: nat)   // a drop position outside a table of this width
    | NoKeyColumn                    // a class workbook read back without any column

  datatype Result<T> = Ok(value: T) | Err(error: Error)

  datatype Option<T> = None | Some(value: T)

  /** The extension every workbook name ends with. */
  const Extension: string := ".xlsx"

  /** One workbook written by name. */
  datatype Entry = Entry(name: string, table: Table)

  /** A directory of workbooks, by file name. */
  type Dir = map<string, Table>

  /** The names of a sequence of writes, in order. */
  function FileNames(es: seq<Entry>): (r: seq<string>)
    ensures |r| == |es|
    ensures forall i :: 0 <= i < |es| ==> r[i] == es[i].name
  {
    seq(|es|, i requires 0 <= i < |es| => es[i].name)
  }

  /** The directory after writing `es` one after the other, starting from `dir`. */
  function WriteAll(dir: Dir, es: seq<Entry>): Dir
    decreases |es|
  {
    if es == [] then dir
    else WriteAll(dir, es[..|es| - 1])[es[|es| - 1].name := es[|es| - 1].table]
  }

  /** Writing one more entry extends the directory by that entry. */
  lemma WriteAllSnoc(dir: Dir, es: seq<Entry>, i: nat)
    requires i < |es|
    ensures WriteAll(dir, es[..i + 1]) == WriteAll(dir, es[..i])[es[i].name := es[i].table]
    ensures FileNames(es[..i + 1]) == FileNames(es[..i]) + [es[i].name]
  {
    assert es[..i + 1][..i] == es[..i];
  }

  /** Writing two batches one after the other is writing their concatenation. */
  lemma {:induction false} WriteAllAppend(dir: Dir, a: seq<Entry>, b: seq<Entry>)
    ensures WriteAll(dir, a + b) == WriteAll(WriteAll(dir, a), b)
    decreases |b|
  {
    if b == [] {
      assert a + b == a;
    } else {
      var b' := b[..|b| - 1];
      assert (a + b)[..|a + b| - 1] == a + b';
      WriteAllAppend(dir, a, b');
    }
  }

  /** The files present afterwards are the old ones plus every name written. */
  lemma {:induction false} WriteAllKeys(dir: Dir, es: seq<Entry>)
    ensures WriteAll(dir, es).Keys == dir.Keys + set i | 0 <= i < |es| :: es[i].name
    decreases |es|
  {
    if es != [] {
      var es' := es[..|es| - 1];
      WriteAllKeys(dir, es');
      assert (set i | 0 <= i < |es| :: es[i].name)
          == (set i | 0 <= i < |es'| :: es'[i].name) + {es[|es| - 1].name};
    }
  }

  /** Last write wins: a file holds the table of the last write with its name. */
  lemma {:induction false} WriteAllLastWins(dir: Dir, es: seq<Entry>, i: nat)
    requires i < |es|
    requires forall j :: i < j < |es| ==> es[j].name != es[i].name
    ensures es[i].name in WriteAll(dir, es)
    ensures WriteAll(dir, es)[es[i].name] == es[i].table
    decreases |es|
  {
    if i < |es| - 1 {
      WriteAllLastWins(dir, es[..|es| - 1], i);
    }
  }

  /** A name never written keeps whatever the directory held before. */
  lemma {:induction false} WriteAllUntouched(dir: Dir, es: seq<Entry>, name: string)
    requires forall j :: 0 <= j < |es| ==> es[j].name != name
    ensures (name in WriteAll(dir, es)) == (name in dir)
    ensures name in dir ==> WriteAll(dir, es)[name] == dir[name]
    decreases |es|
  {
    if es != [] {
      WriteAllUntouched(dir, es[..|es| - 1], name);
    }
  }

  /** Whenever two writes share a name, the directory ends up with the later
      one's table or one written after it: never the earlier one's, unless the
      tables coincide. */
  lemma WriteAllCollision(dir: Dir, es: seq<Entry>, i: nat, j: nat)
    requires i < j < |es| && es[i].name == es[j].name
    ensures es[i].name in WriteAll(dir, es)
    ensures exists l :: j <= l < |es| && es[l].name == es[i].name
                        && WriteAll(dir, es)[es[i].name] == es[l].table
  {
    var l := LastWith(es, es[i].name, j);
    WriteAllLastWins(dir, es, l);
  }

  /** The index of the last write with this name, at or after `from`. */
  function LastWith(es: seq<Entry>, name: string, from: nat): (l: nat)
    requires from < |es| && es[from].name == name
    ensures from <= l < |es| && es[l].name == name
    ensures forall m :: l < m < |es| ==> es[m].name != name
    decreases |es|
  {
    if es[|es| - 1].name == name then |es| - 1
    else LastWith(es[..|es| - 1], name, from)
  }
}
